=== FILE: README.md ===
# Clock-skew patch for meson, modelled in Dafny

`patch_meson_clockskew.py` disables meson's "Clock skew detected" error by
editing meson's own sources. `patch_meson` collects candidate `.py` files. The
candidates are six fixed modules plus every `.py` file under the package
directory. For each candidate whose content, read in text mode, mentions the
message, it saves a `.backup` copy once. It then rewrites each line that
raises the clock-skew error into `pass`, at the same indentation, with a
comment that carries the sentinel `PATCHED: Skip clock skew check` and the
original statement. The file is written back only if a line changed. `restore_meson` visits every
`.backup` file under the package directory. When the matching original exists,
it copies the backup over it and deletes the backup; otherwise the backup stays.

The model has three modules:

- `Text` (`text.dfy`): the Python `str` operations the script relies on. These
  are `in`, `lstrip`, `strip`, `split('\n')` and `'\n'.join`, over
  `seq<char>`. It also models the universal-newline translation of a
  text-mode read, which turns `\r\n` and a lone `\r` into `\n`.
- `ClockSkew` (`clockskew.dfy`): the line rewrite loop.
- `Backup` (`backup.dfy`): the per-file patch and restore steps over a file
  tree `map<string, string>`, and whole runs of both commands. The directory
  walk is a parameter that lists the paths found.

The main results:

- Rewriting is line-wise and idempotent.
- The `modified` flag is true exactly when the lines changed.
- A file named twice among the candidates is patched once, and a second run of
  `patch_meson` changes and reports nothing.
- A backup always holds the content from before the first patch.
- Patching a tree without backups and then restoring it gives the tree back.

## Model

| member | source | states |
|---|---|---|
| Text.LStrip | patch_meson_clockskew.py:66 | `line.lstrip()` is a suffix of the line; everything it drops is whitespace; it does not start with whitespace |
| Text.Indent | patch_meson_clockskew.py:66 | `len(line) - len(line.lstrip())` is the length of the longest all-whitespace prefix: those characters are whitespace and the next one is not |
| Text.Strip | patch_meson_clockskew.py:68 | `line.strip()` is the slice of the line between its leading and trailing whitespace, has no whitespace at either end, and keeps a line free of line feeds |
| Text.Split | patch_meson_clockskew.py:58 | `content.split('\n')` has at least one piece and no piece contains a line feed |
| Text.ReadText | patch_meson_clockskew.py:44-45 | reading a file in text mode yields no carriage return, and a text without one is read unchanged |
| Text.ReadTextLineEnd | patch_meson_clockskew.py:44-45 | after text without a carriage return, a line feed, a CRLF pair, or a carriage return not followed by a line feed is read as exactly one line feed, and the rest is read on its own; with the identity on text without carriage returns this determines the read of every text |
| Text.ReadAfter | patch_meson_clockskew.py:44-45 | text without a carriage return is read unchanged whatever follows it |
| Text.ReadTextExample | patch_meson_clockskew.py:44-45 | a CRLF pair and a lone carriage return are both read as a line feed |
| Text.SplitExample | patch_meson_clockskew.py:58 | `"a\nb\nc".split('\n')` is `["a", "b", "c"]` |
| Text.JoinSplit | patch_meson_clockskew.py:58 | joining the pieces of `split('\n')` with line feeds gives the content back |
| Text.SplitJoin | patch_meson_clockskew.py:82 | splitting the join of line-feed-free lines gives the same lines, so the written text determines the lines |
| Text.StripAfterSpaces | patch_meson_clockskew.py:68 | stripping `n` spaces followed by text that has no whitespace at either end gives that text |
| ClockSkew.DisableShape | patch_meson_clockskew.py:66-68 | a rewritten line has the original's indentation width, now as spaces only (tabs become spaces), starts with `pass `, carries the sentinel, ends with the stripped original, and is still one line |
| ClockSkew.DisableAvoids | patch_meson_clockskew.py:66-68 | a rewritten line contains no character that is absent from the original line, is not a space, and is not in the replacement text |
| ClockSkew.PatchLineSpec | patch_meson_clockskew.py:62-77 | one loop turn changes the line exactly when it lacks the sentinel and meets one of the two raise conditions; the result never needs a patch again; the indentation width is kept |
| ClockSkew.RewriteLines | patch_meson_clockskew.py:58-77 | the rewrite of the lines keeps their number (its line-wise meaning is in the rows below) |
| ClockSkew.RewriteLinesAt | patch_meson_clockskew.py:60-77 | output line `i` depends on input line `i` only |
| ClockSkew.RewriteLinesSpec | patch_meson_clockskew.py:58-77 | the number of lines is kept; line `i` changes if and only if it needs a patch, and then becomes the disabled line; no output line needs a patch; no line feed is introduced |
| ClockSkew.RewriteAvoids | patch_meson_clockskew.py:58-77 | the rewrite introduces no carriage return, nor any other character that is not a space and not in the replacement text |
| ClockSkew.RewriteInPlace | patch_meson_clockskew.py:58-77 | the in-place loop with its three branches computes the line-wise rewrite, and `modified` is true exactly when the output differs from the input |
| ClockSkew.LoopBranches | patch_meson_clockskew.py:62-77 | a sentinel line is skipped even if it also raises; either raise condition replaces the line with a different one; any other line is kept |
| ClockSkew.RewriteIdempotent | patch_meson_clockskew.py:58-77 | rewriting the rewritten lines changes nothing |
| ClockSkew.RewriteFixedPoint | patch_meson_clockskew.py:79 | the rewrite leaves the lines unchanged if and only if no line needs a patch, which is when the file is not written |
| ClockSkew.RaiseExample | patch_meson_clockskew.py:71-75 | `raise MesonException("Clock skew detected")` indented by `n` spaces becomes `n` spaces, the `pass` comment text, then the statement |
| Backup.OriginalOfBackup | patch_meson_clockskew.py:52 | `path + '.backup'` ends with `.backup`, and dropping its last 7 characters gives `path` back |
| Backup.BackupOfOriginal | patch_meson_clockskew.py:115-117 | a file name ending with `.backup` is the backup path of its name without the last 7 characters |
| Backup.SourceIsNotBackup | patch_meson_clockskew.py:36 | a name ending with `.py` never ends with `.backup` |
| Backup.Lines | patch_meson_clockskew.py:44-45 | the lines seen in a file, read in text mode and split on line feeds, contain neither line feeds nor carriage returns |
| Backup.LinesExample | patch_meson_clockskew.py:44-58 | `"a\r\nb\rc"` is seen as the three lines `a`, `b`, `c` |
| Backup.PatchFile | patch_meson_clockskew.py:42-83 | a missing file, or one whose text-mode content lacks the message, is untouched; otherwise a backup holding the raw current content is added only if absent, the file then reads as the rewritten lines, no other file changes, and the file changes exactly when some line needed a patch |
| Backup.WriteBack | patch_meson_clockskew.py:79-83 | where the line separator is a line feed, the written text has no carriage return, reads back as the rewritten lines, and differs from the file's content whenever some line changed |
| Backup.JoinedLinesReadBack | patch_meson_clockskew.py:81-82 | lines free of line feeds and carriage returns, joined and written, read back as the same lines |
| Backup.SettledIsNoOp | patch_meson_clockskew.py:42-83 | patching a path changes nothing if and only if the path is missing, lacks the message, or has a backup and no line left to rewrite |
| Backup.PatchFileTwice | patch_meson_clockskew.py:41-83 | patching the same path twice is the same as patching it once, and the second time does not list it as patched |
| Backup.PatchOtherKeepsSettled | patch_meson_clockskew.py:41-83 | patching one source file cannot unsettle a different source file |
| Backup.Visit | patch_meson_clockskew.py:41-83 | a visit applies the file step and appends the path to the patched list if and only if that file's content changed |
| Backup.PatchEach | patch_meson_clockskew.py:41-83 | visiting candidates never removes a file, adds only `.backup` files, keeps what was listed before, and lists only candidates |
| Backup.Module | patch_meson_clockskew.py:25-30 | every fixed candidate path ends with `.py` |
| Backup.FixedCandidates | patch_meson_clockskew.py:24-31 | all six fixed candidates are `.py` files |
| Backup.WithSuffix | patch_meson_clockskew.py:34-37 | the walk filter keeps exactly the files whose name ends with the suffix |
| Backup.Candidates | patch_meson_clockskew.py:24-37 | every candidate, fixed or found by the walk, is a `.py` file |
| Backup.RestoreFile | patch_meson_clockskew.py:115-122 | a backup is restored exactly when it and its original exist; then the original gets the backup's content, the backup is removed, and no other file changes; otherwise nothing changes |
| Backup.PatchEachFrame | patch_meson_clockskew.py:41-83 | a file that is not among the visited candidates keeps its content |
| Backup.PatchEachUntouched | patch_meson_clockskew.py:47-48 | a file whose content, as read, does not mention the message keeps its content, candidate or not |
| Backup.VisitReported | patch_meson_clockskew.py:41-83 | one visit keeps the report exact: a file of the starting tree is listed if and only if its content changed, listed files come from that tree, and only backups are added |
| Backup.PatchEachReported | patch_meson_clockskew.py:41-83 | over the candidate loop, a file of the starting tree is listed if and only if its content changed, and every listed file existed at the start |
| Backup.PatchEachKeepsContent | patch_meson_clockskew.py:41-83 | a settled source file keeps its content over any further visits |
| Backup.PatchEachRewrites | patch_meson_clockskew.py:41-83 | a source candidate that mentions the message ends the loop reading as the rewrite of its lines at the start |
| Backup.PatchMeson | patch_meson_clockskew.py:24-83 | `patch_meson` removes no file and adds only `.backup` files; it reports a file if and only if that file's content changed, and reports only existing candidates; every candidate that mentions the message reads afterwards as the rewrite of its original lines; every file that is not a candidate, and every file that does not mention the message, keeps its content |
| Backup.RestoreEach | patch_meson_clockskew.py:113-122 | restoring never adds a file, removes only the backups it visits, keeps what was listed before, and lists only originals of visited backups |
| Backup.RestoreEachFrame | patch_meson_clockskew.py:113-122 | a file that is neither a visited backup nor the original of one keeps its content |
| Backup.RestoreEachKeeps | patch_meson_clockskew.py:113-122 | once a backup is gone, later restores keep it gone and leave its original's content alone |
| Backup.RestoreEachRestores | patch_meson_clockskew.py:113-122 | every visited backup whose original exists ends up removed, with its content in the original, and the original reported |
| Backup.RestoreWalkRestores | patch_meson_clockskew.py:111-122 | for a walk without doubled backup names, every walked backup whose original exists is copied over it, removed, and reported |
| Backup.RestoreMeson | patch_meson_clockskew.py:111-122 | `restore_meson` adds no file, removes only `.backup` files found by the walk, and reports only files whose backup the walk found; a file that is not a `.backup` file of the walk, and whose own backup the walk did not find, keeps its content; when the walk has no doubled backup name, every walked backup whose original exists is copied over it, removed, and its original reported |
| Backup.PatchEachKeepsSettled | patch_meson_clockskew.py:41-83 | once a source file is settled, visiting any further candidates keeps it settled |
| Backup.PatchEachSettles | patch_meson_clockskew.py:41-83 | every source candidate is settled at the end of the run |
| Backup.PatchEachAppend | patch_meson_clockskew.py:41 | visiting `a + b` is visiting `a`, then `b` |
| Backup.SettledRunIsNoOp | patch_meson_clockskew.py:41-83 | a run over settled source files leaves the tree unchanged and reports nothing |
| Backup.PatchMesonAgain | patch_meson_clockskew.py:24-83 | running `patch_meson` again on its own result changes no file and reports no file, when the second walk finds no new `.py` file |
| Backup.RepeatedCandidate | patch_meson_clockskew.py:24-41 | a file named again later in the list (by the fixed list and by the walk) changes neither the tree nor the patched list the second time |
| Backup.VisitListsOnce | patch_meson_clockskew.py:79-83 | a visit keeps listed files settled and lists a file only if it is not listed yet |
| Backup.PatchEachListsOnce | patch_meson_clockskew.py:39-83 | no file appears twice in the patched list |
| Backup.PatchMesonListsOnce | patch_meson_clockskew.py:24-83 | `patch_meson` reports each patched file once |
| Backup.VisitBackup | patch_meson_clockskew.py:48-55 | a visit never overwrites an existing backup; it creates one, with the current content, only for the visited file when that file mentions the message |
| Backup.PatchEachBackup | patch_meson_clockskew.py:48-55 | over a run, a backup holds the file's content from before the run and is never overwritten; a file without the message gets no backup and keeps its content |
| Backup.PatchMesonSavesOriginal | patch_meson_clockskew.py:48-55 | after `patch_meson`, a candidate that mentioned the message and had no backup yet has one holding its pre-patch content |
| Backup.PatchMesonSkipsUnrelated | patch_meson_clockskew.py:48 | after `patch_meson`, a `.py` file without the message is unchanged and has no backup |
| Backup.PatchFileThenRestore | patch_meson_clockskew.py:52-55 | patching one file and restoring its fresh backup gives back the tree as it was |
| Backup.PatchFilePaired | patch_meson_clockskew.py:48-83 | patching a source file keeps every backup equal to its original's clean content, and every unbacked file clean |
| Backup.PatchEachPaired | patch_meson_clockskew.py:41-83 | the pairing of backups with clean content holds throughout a patch run |
| Backup.RestoreFilePaired | patch_meson_clockskew.py:115-122 | restoring one backup keeps the pairing and removes exactly that backup |
| Backup.RestoreEachPaired | patch_meson_clockskew.py:113-122 | restoring every remaining backup of a paired tree gives the clean tree back |
| Backup.PatchThenRestore | patch_meson_clockskew.py:113-122 | on a tree with no backups, `restore_meson` after `patch_meson` gives back the tree exactly, when its walk sees every file |
| Backup.RestoreWithoutBackups | patch_meson_clockskew.py:113-131 | with no `.backup` file in the walk, `restore_meson` changes nothing and restores nothing |

Notes on the model:

- The file is read in text mode (line 44), so its content is matched and split
  after CRLF pairs and lone carriage returns have become line feeds. The backup
  is a byte copy and keeps the original line ends. The write (line 81) is in
  text mode too, so each line feed is written as the platform's line
  separator; the model writes line feeds, which is what happens where that
  separator is a line feed (POSIX systems). A file that needs no rewrite is not written, so it keeps its
  carriage returns.
- The file-level test (line 48) asks for the full message `Clock skew detected`.
  The second line condition (line 71) asks only for `Clock skew`. A file whose
  only clock-skew line is `raise MesonException(... "Clock skew" ...)`, without
  the full message, is therefore never patched.
- A backup is made for every file that mentions the message, even when no line
  is rewritten. The model keeps this.
- `'raise' in line` is a plain substring test, as in the source. A line that
  mentions `raised` together with the message is rewritten too.

## Left out

- Locating the package by running `python3 -c 'import mesonbuild; ...'` (lines 16-20 and 105-109) is an external process. The package directory is a parameter.
- `os.walk` is replaced by a parameter listing the full paths of the files it finds, in walk order. The source tests `endswith` on the bare file name, which matches the test on the joined path. Files that appear or vanish during the walk are not modelled.
- `os.path.join` is modelled as joining with `/`. The special cases for a directory argument that already ends with a separator, or for an absolute component, are not modelled.
- Opening, reading and writing files, `shutil.copy2` and `os.remove` become map updates. The timestamps and metadata that `copy2` preserves are not modelled.
- UTF-8 decoding is left out: contents are sequences of characters. Errors are left out too, and the model assumes no I/O or decoding error occurs. In the source, an error while processing one candidate is printed and the loop moves on to the next (lines 85-86). An error anywhere else in `patch_meson` (lines 97-98), and any error in `restore_meson` (lines 133-134), ends the whole command. `restore_meson` has no per-file `try`, so one failing copy or removal stops every later restore, while `RestoreEach` always carries on.
- Every `print`, and the `True`/`False` results, are left out. Those results only report whether the patched or restored list is non-empty, and the model returns that list.
- The command-line dispatch on `sys.argv` (lines 138-142) is left out.
- Backup.WriteBack: assumes the platform's line separator `os.linesep` is `\n`. On Windows a text-mode write turns each line feed into `\r\n`, so the file on disk would differ from the modelled content (it would still read back as the same lines).
- Backup.RestoreMeson: the promise that each walked backup is restored is stated only for walks with no name ending in `.backup.backup`. Restoring `x.backup.backup` overwrites `x.backup`, so the outcome then depends on walk order. The frame and the other clauses hold for every walk.
- Text.IsWhitespace: covers the ASCII characters that Python's `str.isspace` accepts: space, tab, line feed, carriage return, vertical tab, form feed, and 0x1C to 0x1F. The non-ASCII Unicode whitespace that `strip` and `lstrip` also remove is not modelled.
- Backup.PatchThenRestore: holds for a tree that starts with no `.backup` files. If a stale backup already exists, the source keeps it and later restores from it, so the round trip does not return the pre-patch tree.

=== FILE: backup.dfy ===
/**
 The file-level steps of `patch_meson` and `restore_meson`, over a file tree
 modelled as a map from paths to contents. Patching a candidate file that
 mentions the clock-skew message saves a `.backup` copy once and writes the
 rewritten lines back when some line changed; restoring copies a backup
 over its original and deletes it when its original exists.
 */
module Backup {
  import opened Text
  import opened ClockSkew

  /** The package tree: every existing file with its text content. */
  type FileSystem = map<string, string>

  const BackupSuffix: string := ".backup"
  const SourceSuffix: string := ".py"

  /** The result of one step on one file: the new tree, and whether the file
      was acted upon (patched, or restored). */
  datatype Step = Step(fs: FileSystem, acted: bool)

  /** The result of a run over several files: the tree, and the files acted
      upon in order. */
  datatype Run = Run(fs: FileSystem, listed: seq<string>)

  predicate IsSource(p: string) {
    EndsWith(p, SourceSuffix)
  }

  /** Where the backup of `p` lives. */
  function BackupPath(p: string): string {
    p + BackupSuffix
  }

  /** The original a backup belongs to: the backup path without its last
      seven characters. */
  function OriginalPath(b: string): string
    requires EndsWith(b, BackupSuffix)
  {
    b[..|b| - 7]
  }

  /** A backup path is itself a backup file name, and dropping its suffix
      gives back the path it was made from. */
  lemma OriginalOfBackup(p: string)
    ensures EndsWith(BackupPath(p), BackupSuffix)
    ensures OriginalPath(BackupPath(p)) == p
  {
    EndsWithAppend(p, BackupSuffix);
  }

  /** Every backup file name is the backup path of its original. */
  lemma BackupOfOriginal(b: string)
    requires EndsWith(b, BackupSuffix)
    ensures BackupPath(OriginalPath(b)) == b
  {
    assert b == b[..|b| - 7] + b[|b| - 7..];
  }

  /** A Python source file is never taken for a backup. */
  lemma SourceIsNotBackup(p: string)
    requires IsSource(p)
    ensures !EndsWith(p, BackupSuffix)
  {
    assert p[|p| - 3..][2] == p[|p| - 1];
    assert |p| >= 7 ==> p[|p| - 7..][6] == p[|p| - 1];
  }

  /** The lines `patch_meson` sees in a file: its content read in text
      mode, split on line feeds. */
  function Lines(content: string): (r: seq<string>)
    ensures forall i :: 0 <= i < |r| ==> IsLine(r[i]) && '\r' !in r[i]
  {
    SplitAvoids(ReadText(content), '\r');
    Split(ReadText(content))
  }

  /** A file with CRLF line ends, or with lone carriage returns, is seen as
      the same lines as one with line feeds. */
  lemma LinesExample()
    ensures Lines("a\r\nb\rc") == ["a", "b", "c"]
  {
    ReadTextExample();
    SplitExample();
  }

  /** The file-level test: the content, as read, mentions the message. */
  predicate Mentions(content: string) {
    Contains(ReadText(content), Target)
  }

  /** One candidate file in `patch_meson`. A missing file, or one whose
      content does not mention the clock-skew message, is left alone.
      Otherwise a backup holding the current content is made unless one
      exists, the lines are rewritten, and the file is written back only if
      some line changed. */
  function PatchFile(fs: FileSystem, p: string): (r: Step)
    ensures !(p in fs && Mentions(fs[p])) ==> r == Step(fs, false)
    ensures p in fs && Mentions(fs[p]) ==>
              r.fs.Keys == fs.Keys + {BackupPath(p)}
              && Lines(r.fs[p]) == RewriteLines(Lines(fs[p]))
    ensures p in fs && Mentions(fs[p]) && BackupPath(p) !in fs ==>
              r.fs[BackupPath(p)] == fs[p]
    ensures forall k :: k in fs && k != p ==> r.fs[k] == fs[k]
    ensures r.acted <==> p in fs && r.fs[p] != fs[p]
    ensures r.acted <==> p in fs && Mentions(fs[p]) && RewriteLines(Lines(fs[p])) != Lines(fs[p])
  {
    if p !in fs || !Mentions(fs[p]) then Step(fs, false)
    else
      var content := fs[p];
      var saved := if BackupPath(p) in fs then fs else fs[BackupPath(p) := content];
      var lines := Lines(content);
      var out := RewriteLines(lines);
      WriteBack(content);
      assert |BackupPath(p)| > |p|;
      if out != lines then Step(saved[p := Join(out)], true) else Step(saved, false)
  }

  /** The text written back has no carriage return, reads back as the
      rewritten lines, and differs from the file's content whenever some
      line changed. */
  lemma WriteBack(content: string)
    ensures '\r' !in Join(RewriteLines(Lines(content)))
    ensures Lines(Join(RewriteLines(Lines(content)))) == RewriteLines(Lines(content))
    ensures RewriteLines(Lines(content)) != Lines(content) ==> Join(RewriteLines(Lines(content))) != content
  {
    var lines := Lines(content);
    var out := RewriteLines(lines);
    RewriteLinesSpec(lines);
    RewriteAvoids(lines, '\r');
    JoinedLinesReadBack(out);
    if '\r' !in content {
      JoinSplit(content);
      SplitJoin(lines);
    }
  }

  /** Lines without line feeds or carriage returns, once joined, have no
      carriage return and read back as themselves. */
  lemma JoinedLinesReadBack(out: seq<string>)
    requires |out| >= 1
    requires forall i :: 0 <= i < |out| ==> IsLine(out[i]) && '\r' !in out[i]
    ensures '\r' !in Join(out)
    ensures Lines(Join(out)) == out
  {
    JoinAvoids(out, '\r');
    SplitJoin(out);
  }

  /** A path on which patching has nothing left to do: it is missing, it does
      not mention the message, or it has a backup and no line left to
      rewrite. */
  predicate Settled(fs: FileSystem, p: string) {
    || p !in fs
    || !Mentions(fs[p])
    || (BackupPath(p) in fs && RewriteLines(Lines(fs[p])) == Lines(fs[p]))
  }

  /** Patching a path changes nothing exactly when the path is settled. */
  lemma SettledIsNoOp(fs: FileSystem, p: string)
    ensures PatchFile(fs, p) == Step(fs, false) <==> Settled(fs, p)
  {
    if p in fs && Mentions(fs[p]) {
      var r := PatchFile(fs, p);
      if BackupPath(p) !in fs {
        assert BackupPath(p) in r.fs.Keys;
      }
    }
  }

  /** After one patch of a path, that path is settled, so patching it again
      changes nothing and does not report it again. */
  lemma PatchFileTwice(fs: FileSystem, p: string)
    ensures Settled(PatchFile(fs, p).fs, p)
    ensures PatchFile(PatchFile(fs, p).fs, p) == Step(PatchFile(fs, p).fs, false)
  {
    var once := PatchFile(fs, p).fs;
    if p in fs && Mentions(fs[p]) {
      RewriteIdempotent(Lines(fs[p]));
      assert BackupPath(p) in once;
    }
    SettledIsNoOp(once, p);
  }

  /** Patching one source file leaves every other source file settled if it
      was. */
  lemma PatchOtherKeepsSettled(fs: FileSystem, p: string, q: string)
    requires IsSource(p) && q != p
    requires Settled(fs, p)
    ensures Settled(PatchFile(fs, q).fs, p)
  {
    SourceIsNotBackup(p);
    OriginalOfBackup(q);
    assert p != BackupPath(q);
  }

  /** One candidate visited in the loop of `patch_meson`: patch it and list
      it if it was written. */
  function Visit(run: Run, p: string): (r: Run)
    ensures r.fs == PatchFile(run.fs, p).fs
    ensures r.listed == if p in run.fs && r.fs[p] != run.fs[p] then run.listed + [p] else run.listed
  {
    var s := PatchFile(run.fs, p);
    Run(s.fs, if s.acted then run.listed + [p] else run.listed)
  }

  /** Every candidate visited in order. */
  function PatchEach(run: Run, ps: seq<string>): (r: Run)
    ensures run.fs.Keys <= r.fs.Keys
    ensures forall k :: k in r.fs && k !in run.fs ==> EndsWith(k, BackupSuffix)
    ensures run.listed <= r.listed
    ensures forall q :: q in r.listed ==> q in run.listed || q in ps
    decreases |ps|
  {
    if ps == [] then run
    else
      OriginalOfBackup(ps[0]);
      PatchEach(Visit(run, ps[0]), ps[1..])
  }

  /** A file that is not among the candidates keeps its content. */
  lemma {:induction false} PatchEachFrame(run: Run, ps: seq<string>)
    ensures forall k :: k in run.fs && k !in ps ==> k in PatchEach(run, ps).fs && PatchEach(run, ps).fs[k] == run.fs[k]
    decreases |ps|
  {
    if ps != [] {
      PatchEachFrame(Visit(run, ps[0]), ps[1..]);
    }
  }

  /** A file whose content does not mention the message keeps its content,
      whether or not it is a candidate. */
  lemma {:induction false} PatchEachUntouched(run: Run, ps: seq<string>)
    ensures forall k :: k in run.fs && !Mentions(run.fs[k]) ==> k in PatchEach(run, ps).fs && PatchEach(run, ps).fs[k] == run.fs[k]
    decreases |ps|
  {
    if ps != [] {
      PatchEachUntouched(Visit(run, ps[0]), ps[1..]);
    }
  }

  /** The fixed candidate `<dir>/<stem>.py`, as `os.path.join` builds it. */
  function Module(dir: string, stem: string): (p: string)
    ensures IsSource(p)
  {
    EndsWithAppend(dir + "/" + stem, SourceSuffix);
    dir + "/" + stem + SourceSuffix
  }

  /** The six files named in `patch_meson` before the walk. */
  function FixedCandidates(dir: string): (ps: seq<string>)
    ensures forall i :: 0 <= i < |ps| ==> IsSource(ps[i])
  {
    [ Module(dir, "interpreter/interpreter"),
      Module(dir, "interpreterbase/interpreter"),
      Module(dir, "msetup"),
      Module(dir, "mesonmain"),
      Module(dir, "wrap/wrap"),
      Module(dir, "build") ]
  }

  /** The files of a walk whose name ends with `suffix`, in walk order. */
  function WithSuffix(files: seq<string>, suffix: string): (r: seq<string>)
    ensures forall i :: 0 <= i < |r| ==> EndsWith(r[i], suffix)
    ensures forall f :: f in r <==> f in files && EndsWith(f, suffix)
    decreases |files|
  {
    if files == [] then []
    else
      var rest := WithSuffix(files[1..], suffix);
      assert forall f :: f in files <==> f == files[0] || f in files[1..];
      if EndsWith(files[0], suffix) then [files[0]] + rest else rest
  }

  /** The candidate list of `patch_meson`: the fixed files, then every `.py`
      file the walk of the package directory finds. */
  function Candidates(dir: string, walk: seq<string>): (ps: seq<string>)
    ensures forall i :: 0 <= i < |ps| ==> IsSource(ps[i])
  {
    FixedCandidates(dir) + WithSuffix(walk, SourceSuffix)
  }

  /** `patch_meson` once the package directory `dir` is known; `walk` lists
      the files under it. */
  function PatchMeson(fs: FileSystem, dir: string, walk: seq<string>): (r: Run)
    ensures fs.Keys <= r.fs.Keys
    ensures forall k :: k in r.fs && k !in fs ==> EndsWith(k, BackupSuffix)
    ensures forall q :: q in r.listed ==> q in Candidates(dir, walk)
    ensures forall k :: k in fs && k !in Candidates(dir, walk) ==> k in r.fs && r.fs[k] == fs[k]
    ensures forall k :: k in fs && !Mentions(fs[k]) ==> k in r.fs && r.fs[k] == fs[k]
    ensures forall k :: k in fs ==> (k in r.listed <==> r.fs[k] != fs[k])
    ensures forall k :: k in r.listed ==> k in fs
    ensures forall p :: p in Candidates(dir, walk) && p in fs && Mentions(fs[p]) ==>
              Lines(r.fs[p]) == RewriteLines(Lines(fs[p]))
  {
    PatchEachReported(fs, Run(fs, []), Candidates(dir, walk));
    PatchEachRewritesAll(fs, Candidates(dir, walk));
    PatchEachFrame(Run(fs, []), Candidates(dir, walk));
    PatchEachUntouched(Run(fs, []), Candidates(dir, walk));
    PatchEach(Run(fs, []), Candidates(dir, walk))
  }

  /** One backup file in `restore_meson`: when its original exists, the
      backup is copied over it and removed; otherwise nothing happens. */
  function RestoreFile(fs: FileSystem, b: string): (r: Step)
    requires EndsWith(b, BackupSuffix)
    ensures r.acted <==> b in fs && OriginalPath(b) in fs
    ensures r.acted ==> r.fs.Keys == fs.Keys - {b} && r.fs[OriginalPath(b)] == fs[b]
    ensures !r.acted ==> r.fs == fs
    ensures forall k :: k in fs && k != b && k != OriginalPath(b) ==> k in r.fs && r.fs[k] == fs[k]
  {
    var original := OriginalPath(b);
    if b in fs && original in fs then Step(fs[original := fs[b]] - {b}, true)
    else Step(fs, false)
  }

  /** Every backup file visited in order, listing the originals restored. */
  function RestoreEach(run: Run, bs: seq<string>): (r: Run)
    requires forall i :: 0 <= i < |bs| ==> EndsWith(bs[i], BackupSuffix)
    ensures r.fs.Keys <= run.fs.Keys
    ensures forall k :: k in run.fs && k !in r.fs ==> k in bs
    ensures run.listed <= r.listed
    ensures forall q :: q in r.listed ==> q in run.listed || BackupPath(q) in bs
    decreases |bs|
  {
    if bs == [] then run
    else
      BackupOfOriginal(bs[0]);
      var s := RestoreFile(run.fs, bs[0]);
      var next := Run(s.fs, if s.acted then run.listed + [OriginalPath(bs[0])] else run.listed);
      RestoreEach(next, bs[1..])
  }

  /** A file that is neither a visited backup nor the original of one keeps
      its content. */
  lemma {:induction false} RestoreEachFrame(run: Run, bs: seq<string>)
    requires forall i :: 0 <= i < |bs| ==> EndsWith(bs[i], BackupSuffix)
    ensures forall k :: k in run.fs && k !in bs && BackupPath(k) !in bs ==>
              k in RestoreEach(run, bs).fs && RestoreEach(run, bs).fs[k] == run.fs[k]
    decreases |bs|
  {
    if bs != [] {
      BackupOfOriginal(bs[0]);
      var s := RestoreFile(run.fs, bs[0]);
      var next := Run(s.fs, if s.acted then run.listed + [OriginalPath(bs[0])] else run.listed);
      RestoreEachFrame(next, bs[1..]);
    }
  }

  /** Backup names whose originals are not backup names themselves: no
      `x.backup.backup` among them. */
  predicate SingleBackups(bs: seq<string>) {
    forall i :: 0 <= i < |bs| ==> EndsWith(bs[i], BackupSuffix) && !EndsWith(OriginalPath(bs[i]), BackupSuffix)
  }

  /** Once a backup is gone, later restores leave it gone and leave its
      original as it is. */
  lemma {:induction false} RestoreEachKeeps(run: Run, bs: seq<string>, b: string)
    requires SingleBackups(bs)
    requires EndsWith(b, BackupSuffix) && !EndsWith(OriginalPath(b), BackupSuffix)
    requires b !in run.fs && OriginalPath(b) in run.fs
    ensures b !in RestoreEach(run, bs).fs
    ensures OriginalPath(b) in RestoreEach(run, bs).fs
    ensures RestoreEach(run, bs).fs[OriginalPath(b)] == run.fs[OriginalPath(b)]
    decreases |bs|
  {
    if bs != [] {
      var c := bs[0];
      BackupOfOriginal(b);
      BackupOfOriginal(c);
      var s := RestoreFile(run.fs, c);
      var next := Run(s.fs, if s.acted then run.listed + [OriginalPath(c)] else run.listed);
      if c != b {
        assert OriginalPath(b) != OriginalPath(c);
      }
      assert next.fs[OriginalPath(b)] == run.fs[OriginalPath(b)];
      RestoreEachKeeps(next, bs[1..], b);
    }
  }

  /** Every visited backup whose original exists is copied over it, removed,
      and its original is listed as restored. */
  lemma {:induction false} RestoreEachRestores(run: Run, bs: seq<string>, b: string)
    requires SingleBackups(bs)
    requires b in bs && b in run.fs && OriginalPath(b) in run.fs
    ensures b !in RestoreEach(run, bs).fs
    ensures OriginalPath(b) in RestoreEach(run, bs).fs
    ensures RestoreEach(run, bs).fs[OriginalPath(b)] == run.fs[b]
    ensures OriginalPath(b) in RestoreEach(run, bs).listed
    decreases |bs|
  {
    var c := bs[0];
    BackupOfOriginal(b);
    BackupOfOriginal(c);
    var s := RestoreFile(run.fs, c);
    var next := Run(s.fs, if s.acted then run.listed + [OriginalPath(c)] else run.listed);
    if c == b {
      assert OriginalPath(b) in next.listed;
      RestoreEachKeeps(next, bs[1..], b);
    } else {
      assert OriginalPath(b) != OriginalPath(c);
      assert next.fs[b] == run.fs[b] && OriginalPath(b) in next.fs;
      RestoreEachRestores(next, bs[1..], b);
    }
  }

  /** Over a whole walk without doubled backup names, every backup the walk
      finds whose original exists is copied over it, removed, and reported. */
  lemma RestoreWalkRestores(fs: FileSystem, walk: seq<string>)
    ensures (forall b :: b in walk && EndsWith(b, BackupSuffix) ==> !EndsWith(OriginalPath(b), BackupSuffix)) ==>
              forall b :: b in walk && EndsWith(b, BackupSuffix) && b in fs && OriginalPath(b) in fs ==>
                var r := RestoreEach(Run(fs, []), WithSuffix(walk, BackupSuffix));
                b !in r.fs && OriginalPath(b) in r.fs && r.fs[OriginalPath(b)] == fs[b] && OriginalPath(b) in r.listed
  {
    if forall b :: b in walk && EndsWith(b, BackupSuffix) ==> !EndsWith(OriginalPath(b), BackupSuffix) {
      RestoreWalk(fs, walk);
    }
  }

  /** The same, with the walk's lack of doubled backup names required. */
  lemma RestoreWalk(fs: FileSystem, walk: seq<string>)
    requires forall b :: b in walk && EndsWith(b, BackupSuffix) ==> !EndsWith(OriginalPath(b), BackupSuffix)
    ensures forall b :: b in walk && EndsWith(b, BackupSuffix) && b in fs && OriginalPath(b) in fs ==>
              var r := RestoreEach(Run(fs, []), WithSuffix(walk, BackupSuffix));
              b !in r.fs && OriginalPath(b) in r.fs && r.fs[OriginalPath(b)] == fs[b] && OriginalPath(b) in r.listed
  {
    var bs := WithSuffix(walk, BackupSuffix);
    assert SingleBackups(bs) by {
      forall i | 0 <= i < |bs|
        ensures EndsWith(bs[i], BackupSuffix) && !EndsWith(OriginalPath(bs[i]), BackupSuffix)
      {
        assert bs[i] in bs;
      }
    }
    forall b | b in walk && EndsWith(b, BackupSuffix) && b in fs && OriginalPath(b) in fs
      ensures var r := RestoreEach(Run(fs, []), bs);
              b !in r.fs && OriginalPath(b) in r.fs && r.fs[OriginalPath(b)] == fs[b] && OriginalPath(b) in r.listed
    {
      RestoreEachRestores(Run(fs, []), bs, b);
    }
  }

  /** `restore_meson` once the package directory is known; `walk` lists the
      files under it. */
  function RestoreMeson(fs: FileSystem, walk: seq<string>): (r: Run)
    ensures r.fs.Keys <= fs.Keys
    ensures forall k :: k in fs && k !in r.fs ==> k in walk && EndsWith(k, BackupSuffix)
    ensures forall q :: q in r.listed ==> BackupPath(q) in walk
    ensures forall k :: k in fs && !(k in walk && EndsWith(k, BackupSuffix)) && BackupPath(k) !in walk ==>
              k in r.fs && r.fs[k] == fs[k]
    ensures (forall b :: b in walk && EndsWith(b, BackupSuffix) ==> !EndsWith(OriginalPath(b), BackupSuffix)) ==>
              forall b :: b in walk && EndsWith(b, BackupSuffix) && b in fs && OriginalPath(b) in fs ==>
                b !in r.fs && OriginalPath(b) in r.fs && r.fs[OriginalPath(b)] == fs[b] && OriginalPath(b) in r.listed
  {
    RestoreEachFrame(Run(fs, []), WithSuffix(walk, BackupSuffix));
    RestoreWalkRestores(fs, walk);
    RestoreEach(Run(fs, []), WithSuffix(walk, BackupSuffix))
  }

  // Properties of a whole run of patch_meson

  /** Visiting further candidates keeps a settled source file settled. */
  lemma {:induction false} PatchEachKeepsSettled(run: Run, ps: seq<string>, p: string)
    requires IsSource(p) && Settled(run.fs, p)
    ensures Settled(PatchEach(run, ps).fs, p)
    decreases |ps|
  {
    if ps != [] {
      if ps[0] == p {
        SettledIsNoOp(run.fs, p);
      } else {
        PatchOtherKeepsSettled(run.fs, p, ps[0]);
      }
      PatchEachKeepsSettled(Visit(run, ps[0]), ps[1..], p);
    }
  }

  /** Every source candidate visited is settled at the end of the run. */
  lemma {:induction false} PatchEachSettles(run: Run, ps: seq<string>, p: string)
    requires IsSource(p) && p in ps
    ensures Settled(PatchEach(run, ps).fs, p)
    decreases |ps|
  {
    if ps[0] == p {
      PatchFileTwice(run.fs, p);
      PatchEachKeepsSettled(Visit(run, p), ps[1..], p);
    } else {
      PatchEachSettles(Visit(run, ps[0]), ps[1..], p);
    }
  }

  /** Visiting `a + b` is visiting `a`, then `b`. */
  lemma {:induction false} PatchEachAppend(run: Run, a: seq<string>, b: seq<string>)
    ensures PatchEach(run, a + b) == PatchEach(PatchEach(run, a), b)
    decreases |a|
  {
    if a == [] {
      assert a + b == b;
    } else {
      assert (a + b)[0] == a[0] && (a + b)[1..] == a[1..] + b;
      PatchEachAppend(Visit(run, a[0]), a[1..], b);
    }
  }

  /** A run over settled source files changes nothing and lists nothing. */
  lemma {:induction false} SettledRunIsNoOp(run: Run, ps: seq<string>)
    requires forall i :: 0 <= i < |ps| ==> IsSource(ps[i]) && Settled(run.fs, ps[i])
    ensures PatchEach(run, ps) == run
    decreases |ps|
  {
    if ps != [] {
      SettledIsNoOp(run.fs, ps[0]);
      assert Visit(run, ps[0]) == run;
      SettledRunIsNoOp(run, ps[1..]);
    }
  }

  /** Running `patch_meson` a second time changes no file and reports no
      file, provided the second walk finds no `.py` file the first one did
      not (patching only ever adds `.backup` files). */
  lemma PatchMesonAgain(fs: FileSystem, dir: string, walk: seq<string>, walk2: seq<string>)
    requires forall f :: f in walk2 && IsSource(f) ==> f in walk
    ensures PatchMeson(PatchMeson(fs, dir, walk).fs, dir, walk2) == Run(PatchMeson(fs, dir, walk).fs, [])
  {
    var first := Candidates(dir, walk);
    var once := PatchMeson(fs, dir, walk);
    var second := Candidates(dir, walk2);
    forall i | 0 <= i < |second|
      ensures IsSource(second[i]) && Settled(once.fs, second[i])
    {
      var q := second[i];
      if i < |FixedCandidates(dir)| {
        assert q == first[i];
      } else {
        assert q in WithSuffix(walk2, SourceSuffix);
        assert q in WithSuffix(walk, SourceSuffix);
        assert q in first;
      }
      PatchEachSettles(Run(fs, []), first, q);
    }
    SettledRunIsNoOp(Run(once.fs, []), second);
  }

  /** What the patched list reports, relative to the tree `fs0` the run
      started from: files are only added, and only backups; a file of `fs0`
      is listed exactly when its content changed; every listed file came
      from `fs0` and is a settled source file. */
  predicate Reported(fs0: FileSystem, run: Run) {
    && fs0.Keys <= run.fs.Keys
    && (forall k :: k in run.fs && k !in fs0 ==> EndsWith(k, BackupSuffix))
    && (forall k :: k in fs0 ==> (k in run.listed <==> run.fs[k] != fs0[k]))
    && (forall k :: k in run.listed ==> k in fs0)
    && ListedSettled(run)
  }

  /** One visit of a source candidate keeps the report accurate. */
  lemma VisitReported(fs0: FileSystem, run: Run, q: string)
    requires IsSource(q) && Reported(fs0, run)
    ensures Reported(fs0, Visit(run, q))
  {
    var next := Visit(run, q);
    VisitListsOnce(run, q);
    OriginalOfBackup(q);
    SourceIsNotBackup(q);
    if q in run.listed {
      SettledIsNoOp(run.fs, q);
    }
    assert q !in fs0 ==> q !in run.fs;
  }

  /** The report stays accurate over a run of source candidates. */
  lemma {:induction false} PatchEachReported(fs0: FileSystem, run: Run, ps: seq<string>)
    requires forall i :: 0 <= i < |ps| ==> IsSource(ps[i])
    requires Reported(fs0, run)
    ensures Reported(fs0, PatchEach(run, ps))
    decreases |ps|
  {
    if ps != [] {
      VisitReported(fs0, run, ps[0]);
      PatchEachReported(fs0, Visit(run, ps[0]), ps[1..]);
    }
  }

  /** A settled source file keeps its content over any further visits. */
  lemma {:induction false} PatchEachKeepsContent(run: Run, ps: seq<string>, p: string)
    requires IsSource(p) && p in run.fs && Settled(run.fs, p)
    ensures p in PatchEach(run, ps).fs && PatchEach(run, ps).fs[p] == run.fs[p]
    decreases |ps|
  {
    if ps != [] {
      if ps[0] == p {
        SettledIsNoOp(run.fs, p);
      } else {
        PatchOtherKeepsSettled(run.fs, p, ps[0]);
      }
      PatchEachKeepsContent(Visit(run, ps[0]), ps[1..], p);
    }
  }

  /** A source candidate that mentions the message ends up holding the
      rewrite of its lines. */
  lemma {:induction false} PatchEachRewrites(run: Run, ps: seq<string>, p: string)
    requires IsSource(p) && p in ps
    requires p in run.fs && Mentions(run.fs[p])
    ensures p in PatchEach(run, ps).fs
    ensures Lines(PatchEach(run, ps).fs[p]) == RewriteLines(Lines(run.fs[p]))
    decreases |ps|
  {
    var next := Visit(run, ps[0]);
    if ps[0] == p {
      PatchFileTwice(run.fs, p);
      PatchEachKeepsContent(next, ps[1..], p);
    } else {
      PatchEachRewrites(next, ps[1..], p);
    }
  }

  /** Every source candidate that mentions the message ends up holding the
      rewrite of its lines. */
  lemma PatchEachRewritesAll(fs: FileSystem, ps: seq<string>)
    requires forall i :: 0 <= i < |ps| ==> IsSource(ps[i])
    ensures forall p :: p in ps && p in fs && Mentions(fs[p]) ==>
              p in PatchEach(Run(fs, []), ps).fs && Lines(PatchEach(Run(fs, []), ps).fs[p]) == RewriteLines(Lines(fs[p]))
  {
    forall p | p in ps && p in fs && Mentions(fs[p])
      ensures p in PatchEach(Run(fs, []), ps).fs && Lines(PatchEach(Run(fs, []), ps).fs[p]) == RewriteLines(Lines(fs[p]))
    {
      assert IsSource(p);
      PatchEachRewrites(Run(fs, []), ps, p);
    }
  }

  /** A source file named twice among the candidates (by the fixed list and
      by the walk) is acted upon the first time only: dropping the repeat
      leaves both the tree and the list of patched files unchanged. */
  lemma RepeatedCandidate(run: Run, ps: seq<string>, p: string, qs: seq<string>)
    requires IsSource(p) && p in ps
    ensures PatchEach(run, ps + [p] + qs) == PatchEach(run, ps + qs)
  {
    var mid := PatchEach(run, ps);
    PatchEachSettles(run, ps, p);
    SettledIsNoOp(mid.fs, p);
    assert PatchEach(mid, [p]) == mid by {
      assert Visit(mid, p) == mid;
      assert [p][1..] == [];
    }
    PatchEachAppend(run, ps + [p], qs);
    PatchEachAppend(run, ps, [p]);
    PatchEachAppend(run, ps, qs);
  }

  predicate Distinct(s: seq<string>) {
    forall i, j :: 0 <= i < j < |s| ==> s[i] != s[j]
  }

  /** Every file listed so far is a settled source file. */
  predicate ListedSettled(run: Run) {
    forall i :: 0 <= i < |run.listed| ==> IsSource(run.listed[i]) && Settled(run.fs, run.listed[i])
  }

  /** Visiting a source candidate keeps every listed file settled, and lists
      the candidate only if it was not listed before. */
  lemma VisitListsOnce(run: Run, q: string)
    requires IsSource(q) && ListedSettled(run)
    ensures ListedSettled(Visit(run, q))
    ensures Visit(run, q).listed != run.listed ==> q !in run.listed
  {
    var next := Visit(run, q);
    PatchFileTwice(run.fs, q);
    forall i | 0 <= i < |run.listed|
      ensures Settled(next.fs, run.listed[i])
    {
      if run.listed[i] == q {
        SettledIsNoOp(run.fs, q);
      } else {
        PatchOtherKeepsSettled(run.fs, run.listed[i], q);
      }
    }
    if q in run.listed {
      SettledIsNoOp(run.fs, q);
    }
  }

  /** No file is listed as patched twice, however often it is a candidate. */
  lemma {:induction false} PatchEachListsOnce(run: Run, ps: seq<string>)
    requires forall i :: 0 <= i < |ps| ==> IsSource(ps[i])
    requires Distinct(run.listed) && ListedSettled(run)
    ensures Distinct(PatchEach(run, ps).listed)
    decreases |ps|
  {
    if ps != [] {
      VisitListsOnce(run, ps[0]);
      PatchEachListsOnce(Visit(run, ps[0]), ps[1..]);
    }
  }

  /** `patch_meson` reports each patched file once, even one that is both a
      fixed candidate and found by the walk. */
  lemma PatchMesonListsOnce(fs: FileSystem, dir: string, walk: seq<string>)
    ensures Distinct(PatchMeson(fs, dir, walk).listed)
  {
    PatchEachListsOnce(Run(fs, []), Candidates(dir, walk));
  }

  /** `p` still holds `original` and has no backup yet. */
  predicate Pristine(fs: FileSystem, p: string, original: string) {
    p in fs && fs[p] == original && BackupPath(p) !in fs
  }

  /** The backup of `p` exists and holds `original`. */
  predicate Saved(fs: FileSystem, p: string, original: string) {
    BackupPath(p) in fs && fs[BackupPath(p)] == original
  }

  /** One visit keeps a saved backup as it is, leaves a pristine file
      pristine unless it is the file visited and mentions the message, and in
      that case saves its content. */
  lemma VisitBackup(fs: FileSystem, q: string, p: string, original: string)
    requires IsSource(q) && IsSource(p)
    requires Pristine(fs, p, original) || Saved(fs, p, original)
    ensures Saved(fs, p, original) ==> Saved(PatchFile(fs, q).fs, p, original)
    ensures Pristine(fs, p, original) && (q != p || !Mentions(original)) ==>
              Pristine(PatchFile(fs, q).fs, p, original)
    ensures Pristine(fs, p, original) && q == p && Mentions(original) ==>
              Saved(PatchFile(fs, q).fs, p, original)
  {
    SourceIsNotBackup(q);
    OriginalOfBackup(q);
    OriginalOfBackup(p);
    assert BackupPath(p) != q;
    assert q != p ==> BackupPath(q) != BackupPath(p);
  }

  /** Over a run, the backup of a source file is made from the content the
      file had before the run, and no later visit overwrites it; a file that
      never mentions the message gets no backup and keeps its content. */
  lemma {:induction false} PatchEachBackup(run: Run, ps: seq<string>, p: string, original: string)
    requires forall i :: 0 <= i < |ps| ==> IsSource(ps[i])
    requires IsSource(p)
    requires Pristine(run.fs, p, original) || Saved(run.fs, p, original)
    ensures Saved(run.fs, p, original) || (p in ps && Mentions(original)) ==>
              Saved(PatchEach(run, ps).fs, p, original)
    ensures Pristine(run.fs, p, original) && !Mentions(original) ==>
              Pristine(PatchEach(run, ps).fs, p, original)
    decreases |ps|
  {
    if ps != [] {
      VisitBackup(run.fs, ps[0], p, original);
      PatchEachBackup(Visit(run, ps[0]), ps[1..], p, original);
    }
  }

  /** After `patch_meson`, a candidate that mentioned the message and had no
      backup has one holding its content from before the patch. */
  lemma PatchMesonSavesOriginal(fs: FileSystem, dir: string, walk: seq<string>, p: string)
    requires p in Candidates(dir, walk)
    requires p in fs && BackupPath(p) !in fs && Mentions(fs[p])
    ensures Saved(PatchMeson(fs, dir, walk).fs, p, fs[p])
  {
    PatchEachBackup(Run(fs, []), Candidates(dir, walk), p, fs[p]);
  }

  /** After `patch_meson`, a source file without the message has neither
      changed nor gained a backup. */
  lemma PatchMesonSkipsUnrelated(fs: FileSystem, dir: string, walk: seq<string>, p: string)
    requires IsSource(p)
    requires p in fs && BackupPath(p) !in fs && !Mentions(fs[p])
    ensures Pristine(PatchMeson(fs, dir, walk).fs, p, fs[p])
  {
    PatchEachBackup(Run(fs, []), Candidates(dir, walk), p, fs[p]);
  }

  // Patch, then restore

  /** Patching one file and restoring its fresh backup gives back the tree
      as it was. */
  lemma PatchFileThenRestore(fs: FileSystem, p: string)
    requires p in fs && Mentions(fs[p]) && BackupPath(p) !in fs
    ensures RestoreFile(PatchFile(fs, p).fs, BackupPath(p)).fs == fs
  {
    var patched := PatchFile(fs, p).fs;
    OriginalOfBackup(p);
    var restored := RestoreFile(patched, BackupPath(p)).fs;
    assert restored.Keys == fs.Keys;
    assert restored[p] == fs[p];
  }

  /** No backup files anywhere: the tree before any patch. */
  predicate Clean(fs: FileSystem) {
    forall k :: k in fs ==> !EndsWith(k, BackupSuffix)
  }

  /** `cur` is the clean tree `fs0` after patching: it has the files of `fs0`
      and some backups; each backup holds what its original had in `fs0`,
      and every file without a backup still has its `fs0` content. */
  predicate Paired(fs0: FileSystem, cur: FileSystem) {
    && fs0.Keys <= cur.Keys
    && (forall b :: b in cur && b !in fs0 ==>
          EndsWith(b, BackupSuffix) && OriginalPath(b) in fs0 && cur[b] == fs0[OriginalPath(b)])
    && (forall k :: k in fs0 ==> cur[k] == fs0[k] || BackupPath(k) in cur)
  }

  /** Patching a source file keeps a tree paired with its clean origin. */
  lemma PatchFilePaired(fs0: FileSystem, cur: FileSystem, p: string)
    requires Clean(fs0) && Paired(fs0, cur) && IsSource(p)
    ensures Paired(fs0, PatchFile(cur, p).fs)
  {
    SourceIsNotBackup(p);
    OriginalOfBackup(p);
    var next := PatchFile(cur, p).fs;
    if p in cur && Mentions(cur[p]) {
      assert p in fs0;
      assert BackupPath(p) !in fs0;
      forall b | b in next && b !in fs0
        ensures EndsWith(b, BackupSuffix) && OriginalPath(b) in fs0 && next[b] == fs0[OriginalPath(b)]
      {
        if b != BackupPath(p) {
          assert b in cur;
        }
      }
    }
  }

  lemma {:induction false} PatchEachPaired(fs0: FileSystem, run: Run, ps: seq<string>)
    requires forall i :: 0 <= i < |ps| ==> IsSource(ps[i])
    requires Clean(fs0) && Paired(fs0, run.fs)
    ensures Paired(fs0, PatchEach(run, ps).fs)
    decreases |ps|
  {
    if ps != [] {
      PatchFilePaired(fs0, run.fs, ps[0]);
      PatchEachPaired(fs0, Visit(run, ps[0]), ps[1..]);
    }
  }

  /** Restoring one backup keeps the tree paired, with that backup gone. */
  lemma RestoreFilePaired(fs0: FileSystem, cur: FileSystem, b: string)
    requires Clean(fs0) && Paired(fs0, cur) && EndsWith(b, BackupSuffix)
    ensures Paired(fs0, RestoreFile(cur, b).fs)
    ensures RestoreFile(cur, b).fs.Keys == cur.Keys - {b}
  {
    var next := RestoreFile(cur, b).fs;
    if b in cur {
      assert b !in fs0;
      var o := OriginalPath(b);
      forall k | k in fs0
        ensures next[k] == fs0[k] || BackupPath(k) in next
      {
        if k != o && next[k] != fs0[k] {
          OriginalOfBackup(k);
          assert BackupPath(k) != b;
        }
      }
    }
  }

  /** Restoring every backup still present turns a paired tree back into its
      clean origin. */
  lemma {:induction false} RestoreEachPaired(fs0: FileSystem, run: Run, bs: seq<string>)
    requires forall i :: 0 <= i < |bs| ==> EndsWith(bs[i], BackupSuffix)
    requires Clean(fs0) && Paired(fs0, run.fs)
    requires forall b :: b in run.fs && b !in fs0 ==> b in bs
    ensures RestoreEach(run, bs).fs == fs0
    decreases |bs|
  {
    if bs == [] {
      forall k | k in fs0
        ensures run.fs[k] == fs0[k]
      {
        OriginalOfBackup(k);
      }
      assert run.fs.Keys == fs0.Keys;
    } else {
      RestoreFilePaired(fs0, run.fs, bs[0]);
      var s := RestoreFile(run.fs, bs[0]);
      var next := Run(s.fs, if s.acted then run.listed + [OriginalPath(bs[0])] else run.listed);
      assert forall b :: b in next.fs && b !in fs0 ==> b in bs[1..];
      RestoreEachPaired(fs0, next, bs[1..]);
    }
  }

  /** Patch, then restore: on a tree with no backups, `restore_meson` after
      `patch_meson` gives back every file's original content and leaves no
      backup behind, provided the walk of the restore sees every file. */
  lemma PatchThenRestore(fs: FileSystem, dir: string, walk: seq<string>, walk2: seq<string>)
    requires Clean(fs)
    requires forall k :: k in PatchMeson(fs, dir, walk).fs ==> k in walk2
    ensures RestoreMeson(PatchMeson(fs, dir, walk).fs, walk2).fs == fs
  {
    var patched := PatchMeson(fs, dir, walk);
    PatchEachPaired(fs, Run(fs, []), Candidates(dir, walk));
    RestoreEachPaired(fs, Run(patched.fs, []), WithSuffix(walk2, BackupSuffix));
  }

  /** With no backup among the files, `restore_meson` restores nothing. */
  lemma RestoreWithoutBackups(fs: FileSystem, walk: seq<string>)
    requires forall i :: 0 <= i < |walk| ==> !EndsWith(walk[i], BackupSuffix)
    ensures RestoreMeson(fs, walk) == Run(fs, [])
  {
  }
}

=== FILE: clockskew.dfy ===
/**
 The line rewrite inside `patch_meson`: every line of a source file that raises
 meson's clock-skew error is replaced by a `pass` statement at the same
 indentation, followed by a comment that carries a sentinel and the original
 statement. Lines already carrying the sentinel are left alone, which makes the
 rewrite idempotent.
 */
module ClockSkew {
  import opened Text

  /** The marker that tags a line as already patched. */
  const Sentinel: string := "PATCHED: Skip clock skew check"

  /** The message whose presence in a file makes it a candidate. */
  const Target: string := "Clock skew detected"

  /** The start of a patched line after its indentation: the `pass`
      statement and a space. */
  const Pass: string := "pass "

  /** What a patched line holds between its indentation and the original
      statement: `pass  # PATCHED: Skip clock skew check - `. */
  const Replacement: string := Pass + " # " + Sentinel + " - "

  predicate IsPatched(line: string) {
    Contains(line, Sentinel)
  }

  /** The two shapes of line that raise the clock-skew error: the message
      together with `raise`, or `raise MesonException` together with
      `Clock skew`. */
  predicate RaisesClockSkew(line: string) {
    RaisesWithMessage(line) || RaisesMesonException(line)
  }

  predicate RaisesWithMessage(line: string) {
    Contains(line, Target) && Contains(line, "raise")
  }

  predicate RaisesMesonException(line: string) {
    Contains(line, "raise MesonException") && Contains(line, "Clock skew")
  }

  /** A line the rewrite replaces. */
  predicate NeedsPatch(line: string) {
    !IsPatched(line) && RaisesClockSkew(line)
  }

  /** The replacement for a matching line: as many spaces as the line has
      leading whitespace characters, the `pass` statement with the sentinel
      comment, then the stripped original. */
  function Disable(line: string): string {
    Spaces(Indent(line)) + Replacement + Strip(line)
  }

  /** A disabled line keeps the indentation width of the original, now made
      of spaces only (leading tabs become spaces), starts a `pass` statement,
      carries the sentinel, and ends with the original statement stripped of
      surrounding whitespace. */
  lemma DisableShape(line: string)
    ensures Indent(Disable(line)) == Indent(line)
    ensures AllSpaces(Disable(line)[..Indent(line)])
    ensures StartsWith(Disable(line)[Indent(line)..], Pass)
    ensures IsPatched(Disable(line))
    ensures EndsWith(Disable(line), Strip(line))
    ensures IsLine(line) ==> IsLine(Disable(line))
  {
    ReplacementShape(Indent(line), Strip(line));
  }

  /** The facts about a replaced line that `Disable` promises, stated for any
      indentation width and any statement text. */
  lemma ReplacementShape(k: nat, body: string)
    ensures Indent(Spaces(k) + Replacement + body) == k
    ensures AllSpaces((Spaces(k) + Replacement + body)[..k])
    ensures IsPatched(Spaces(k) + Replacement + body)
    ensures EndsWith(Spaces(k) + Replacement + body, body)
    ensures StartsWith((Spaces(k) + Replacement + body)[k..], Pass)
    ensures IsLine(body) ==> IsLine(Spaces(k) + Replacement + body)
  {
    ReplacementIndent(k, body);
    ReplacementPrefix(k, body);
    SentinelInReplacement(Spaces(k), body);
    EndsWithAppend(Spaces(k) + Replacement, body);
    ReplacementIsLine(Spaces(k), body);
  }

  lemma ReplacementIndent(k: nat, body: string)
    ensures Indent(Spaces(k) + Replacement + body) == k
  {
    assert (Replacement + body)[0] == Pass[0];
    assert Spaces(k) + Replacement + body == Spaces(k) + (Replacement + body);
    IndentAfterSpaces(k, Replacement + body);
  }

  lemma ReplacementPrefix(k: nat, body: string)
    ensures (Spaces(k) + Replacement + body)[..k] == Spaces(k)
    ensures StartsWith((Spaces(k) + Replacement + body)[k..], Pass)
  {
    var r := Spaces(k) + Replacement + body;
    assert r[k..] == Replacement + body;
    assert (Replacement + body)[..|Pass|] == Pass;
  }

  lemma ReplacementIsLine(a: string, body: string)
    requires IsLine(a)
    ensures IsLine(body) ==> IsLine(a + Replacement + body)
  {
    assert IsLine(Replacement);
  }

  lemma SentinelInReplacement(a: string, c: string)
    ensures IsPatched(a + Replacement + c)
  {
    var pre := Pass + " # ";
    var post := " - ";
    assert a + Replacement + c == (a + pre) + Sentinel + (post + c);
    ContainsInfix(a + pre, Sentinel, post + c);
  }

  /** A disabled line holds no character that is absent from the original
      line, is not a space and does not occur in the replacement text. */
  lemma DisableAvoids(line: string, c: char)
    requires c != ' ' && c !in Replacement
    ensures c !in line ==> c !in Disable(line)
  {
    var n := Indent(line);
    SliceAvoids(line, n, n + |Strip(line)|, c);
    assert c !in Spaces(n);
  }

  /** One turn of the loop: a matching line is disabled, any other line is
      kept. */
  function PatchLine(line: string): string {
    if NeedsPatch(line) then Disable(line) else line
  }

  /** A line changes exactly when it needs a patch, and what comes out never
      needs one again. */
  lemma PatchLineSpec(line: string)
    ensures PatchLine(line) != line <==> NeedsPatch(line)
    ensures !NeedsPatch(PatchLine(line))
    ensures Indent(PatchLine(line)) == Indent(line)
    ensures IsLine(line) ==> IsLine(PatchLine(line))
  {
    if NeedsPatch(line) {
      DisableShape(line);
    }
  }

  /** The whole loop, as a function of the lines. */
  function RewriteLines(lines: seq<string>): (r: seq<string>)
    ensures |r| == |lines|
    decreases |lines|
  {
    if lines == [] then [] else [PatchLine(lines[0])] + RewriteLines(lines[1..])
  }

  /** Line `i` of the output is line `i` of the input, patched on its own:
      the rewrite of one line never looks at another. */
  lemma {:induction false} RewriteLinesAt(lines: seq<string>, i: int)
    requires 0 <= i < |lines|
    ensures RewriteLines(lines)[i] == PatchLine(lines[i])
    decreases |lines|
  {
    if i > 0 {
      RewriteLinesAt(lines[1..], i - 1);
    }
  }

  /** Line `i` of the output differs from line `i` of the input exactly when
      the input line needs a patch, in which case it is the disabled line; no
      output line needs a patch; line feeds are never introduced. */
  lemma RewriteLinesSpec(lines: seq<string>)
    ensures forall i :: 0 <= i < |lines| ==> (RewriteLines(lines)[i] != lines[i] <==> NeedsPatch(lines[i]))
    ensures forall i :: 0 <= i < |lines| && NeedsPatch(lines[i]) ==> RewriteLines(lines)[i] == Disable(lines[i])
    ensures forall i :: 0 <= i < |lines| ==> !NeedsPatch(RewriteLines(lines)[i])
    ensures forall i :: 0 <= i < |lines| && IsLine(lines[i]) ==> IsLine(RewriteLines(lines)[i])
  {
    forall i | 0 <= i < |lines|
      ensures RewriteLines(lines)[i] != lines[i] <==> NeedsPatch(lines[i])
      ensures NeedsPatch(lines[i]) ==> RewriteLines(lines)[i] == Disable(lines[i])
      ensures !NeedsPatch(RewriteLines(lines)[i])
      ensures IsLine(lines[i]) ==> IsLine(RewriteLines(lines)[i])
    {
      RewriteLinesAt(lines, i);
      PatchLineSpec(lines[i]);
    }
  }

  /** The rewrite introduces no character that is not a space and does not
      occur in the replacement text: in particular no carriage return. */
  lemma RewriteAvoids(lines: seq<string>, c: char)
    requires c != ' ' && c !in Replacement
    requires forall i :: 0 <= i < |lines| ==> c !in lines[i]
    ensures forall i :: 0 <= i < |lines| ==> c !in RewriteLines(lines)[i]
  {
    forall i | 0 <= i < |lines|
      ensures c !in RewriteLines(lines)[i]
    {
      RewriteLinesAt(lines, i);
      DisableAvoids(lines[i], c);
    }
  }

  /** The loop as written: walk the lines, skip those with the sentinel,
      disable those matching either raise pattern, and remember whether any
      line changed. */
  method RewriteInPlace(lines: seq<string>) returns (out: seq<string>, modified: bool)
    ensures out == RewriteLines(lines)
    ensures modified <==> out != lines
  {
    out := lines;
    modified := false;
    for i := 0 to |lines|
      invariant |out| == |lines|
      invariant forall j :: 0 <= j < i ==> out[j] == RewriteLines(lines)[j]
      invariant forall j :: i <= j < |lines| ==> out[j] == lines[j]
      invariant modified <==> out != lines
    {
      var line := out[i];
      LoopBranches(lines, i);
      if IsPatched(line) {
        continue;
      } else if RaisesWithMessage(line) {
        out := out[i := Disable(line)];
        modified := true;
      } else if RaisesMesonException(line) {
        out := out[i := Disable(line)];
        modified := true;
      }
    }
  }

  /** The three branches of the loop body agree with the rewrite of line
      `i`, and the two that rewrite really change the line. */
  lemma LoopBranches(lines: seq<string>, i: int)
    requires 0 <= i < |lines|
    ensures IsPatched(lines[i]) ==> RewriteLines(lines)[i] == lines[i]
    ensures !IsPatched(lines[i]) && RaisesWithMessage(lines[i]) ==>
              RewriteLines(lines)[i] == Disable(lines[i]) != lines[i]
    ensures !IsPatched(lines[i]) && !RaisesWithMessage(lines[i]) && RaisesMesonException(lines[i]) ==>
              RewriteLines(lines)[i] == Disable(lines[i]) != lines[i]
    ensures !IsPatched(lines[i]) && !RaisesWithMessage(lines[i]) && !RaisesMesonException(lines[i]) ==>
              RewriteLines(lines)[i] == lines[i]
  {
    RewriteLinesAt(lines, i);
    PatchLineSpec(lines[i]);
  }

  /** Rewriting the output again changes nothing. */
  lemma RewriteIdempotent(lines: seq<string>)
    ensures RewriteLines(RewriteLines(lines)) == RewriteLines(lines)
  {
    var once := RewriteLines(lines);
    var twice := RewriteLines(once);
    RewriteLinesSpec(lines);
    RewriteLinesSpec(once);
    assert forall i :: 0 <= i < |once| ==> twice[i] == once[i];
  }

  /** A rewrite that changes nothing is exactly one over lines none of which
      needs a patch. */
  lemma RewriteFixedPoint(lines: seq<string>)
    ensures RewriteLines(lines) == lines <==> forall i :: 0 <= i < |lines| ==> !NeedsPatch(lines[i])
  {
    RewriteLinesSpec(lines);
    if RewriteLines(lines) != lines {
      var r := RewriteLines(lines);
      var i :| 0 <= i < |lines| && r[i] != lines[i];
      assert NeedsPatch(lines[i]);
    }
  }

  /** The typical clock-skew statement. */
  const ExampleStatement: string := "raise MesonException(\"Clock skew detected\")"

  /** The typical clock-skew statement indented by `n` spaces becomes `pass`
      at the same `n` spaces, commented with the sentinel and the original
      statement. */
  lemma RaiseExample(n: nat)
    ensures PatchLine(Spaces(n) + ExampleStatement) == Spaces(n) + Replacement + ExampleStatement
  {
    var line := Spaces(n) + ExampleStatement;
    ExampleNeedsPatch(n);
    StripAfterSpaces(n, ExampleStatement);
    IndentAfterSpaces(n, ExampleStatement);
    assert PatchLine(line) == Disable(line);
  }

  lemma ExampleNeedsPatch(n: nat)
    ensures NeedsPatch(Spaces(n) + ExampleStatement)
  {
    ExampleHasMessage(n);
    ExampleHasRaise(n);
    ExampleNotPatched(n);
  }

  lemma ExampleHasMessage(n: nat)
    ensures Contains(Spaces(n) + ExampleStatement, Target)
  {
    assert Spaces(n) + ExampleStatement == (Spaces(n) + "raise MesonException(\"") + Target + "\")";
    ContainsInfix(Spaces(n) + "raise MesonException(\"", Target, "\")");
  }

  lemma ExampleHasRaise(n: nat)
    ensures Contains(Spaces(n) + ExampleStatement, "raise")
  {
    var stmt := ExampleStatement;
    assert stmt == "raise" + stmt[5..];
    assert Spaces(n) + stmt == Spaces(n) + "raise" + stmt[5..];
    ContainsInfix(Spaces(n), "raise", stmt[5..]);
  }

  lemma ExampleNotPatched(n: nat)
    ensures !IsPatched(Spaces(n) + ExampleStatement)
  {
    var line := Spaces(n) + ExampleStatement;
    assert 'P' !in ExampleStatement;
    assert 'P' !in line;
    ContainsFirstChar(line, Sentinel);
  }
}

=== FILE: text.dfy ===
/**
 The string operations the patcher borrows from Python's `str`: membership of a
 substring (`sub in s`), `endswith`, `lstrip`/`strip` without arguments,
 `split('\n')` and `'\n'.join(...)`, and the universal-newline translation of
 a text-mode read. Strings are `seq<char>`. `StartsWith` serves only to state
 what a rewritten line looks like.
 */
module Text {

  /** The characters `str.isspace` accepts that lie in ASCII: space, tab, line
      feed, carriage return, vertical tab, form feed and the four separators
      0x1C..0x1F. */
  predicate IsWhitespace(c: char) {
    c == ' ' || c == '\t' || c == '\n' || c == '\r' || c == '\U{0B}' || c == '\U{0C}'
    || c == '\U{1C}' || c == '\U{1D}' || c == '\U{1E}' || c == '\U{1F}'
  }

  /** Every character of `s` from `lo` up to `hi` is whitespace. */
  predicate AllWhitespace(s: string, lo: int, hi: int)
    requires 0 <= lo && hi <= |s|
  {
    forall i :: lo <= i < hi ==> IsWhitespace(s[i])
  }

  /** `s` consists of space characters only. */
  predicate AllSpaces(s: string) {
    forall i :: 0 <= i < |s| ==> s[i] == ' '
  }

  /** A single line, as produced by splitting on line feeds. */
  predicate IsLine(s: string) {
    '\n' !in s
  }

  predicate StartsWith(s: string, prefix: string) {
    |prefix| <= |s| && s[..|prefix|] == prefix
  }

  predicate EndsWith(s: string, suffix: string) {
    |suffix| <= |s| && s[|s| - |suffix|..] == suffix
  }

  /** `sub` occurs in `s` starting at position `i`. */
  predicate OccursAt(s: string, sub: string, i: int) {
    0 <= i && i + |sub| <= |s| && s[i..i + |sub|] == sub
  }

  /** Python's `sub in s`: `sub` occurs at some position of `s`. */
  predicate Contains(s: string, sub: string) {
    exists i | 0 <= i <= |s| - |sub| :: OccursAt(s, sub, i)
  }

  /** `n` space characters, as Python's `' ' * n`. */
  function Spaces(n: nat): (r: string)
    ensures |r| == n && AllSpaces(r)
  {
    seq(n, _ => ' ')
  }

  /** Python's `s.lstrip()`: the suffix of `s` left once the leading
      whitespace is gone. */
  function LStrip(s: string): (r: string)
    ensures |r| <= |s| && r == s[|s| - |r|..]
    ensures AllWhitespace(s, 0, |s| - |r|)
    ensures |r| > 0 ==> !IsWhitespace(r[0])
    decreases |s|
  {
    if |s| > 0 && IsWhitespace(s[0]) then LStrip(s[1..]) else s
  }

  /** Python's `s.rstrip()`: the prefix of `s` left once the trailing
      whitespace is gone. */
  function RStrip(s: string): (r: string)
    ensures |r| <= |s| && r == s[..|r|]
    ensures AllWhitespace(s, |r|, |s|)
    ensures |r| > 0 ==> !IsWhitespace(r[|r| - 1])
    decreases |s|
  {
    if |s| > 0 && IsWhitespace(s[|s| - 1]) then RStrip(s[..|s| - 1]) else s
  }

  /** The indentation width `len(s) - len(s.lstrip())`: the length of the
      longest all-whitespace prefix of `s`. */
  function Indent(s: string): (n: nat)
    ensures n <= |s|
    ensures AllWhitespace(s, 0, n)
    ensures n < |s| ==> !IsWhitespace(s[n])
  {
    |s| - |LStrip(s)|
  }

  /** Python's `s.strip()`: the slice of `s` between its leading and its
      trailing whitespace. */
  function Strip(s: string): (r: string)
    ensures Indent(s) + |r| <= |s| && r == s[Indent(s)..Indent(s) + |r|]
    ensures AllWhitespace(s, 0, Indent(s)) && AllWhitespace(s, Indent(s) + |r|, |s|)
    ensures |r| > 0 ==> !IsWhitespace(r[0]) && !IsWhitespace(r[|r| - 1])
    ensures IsLine(s) ==> IsLine(r)
  {
    var r := RStrip(LStrip(s));
    StripSlice(s, Indent(s), r);
    r
  }

  /** A prefix `r` of `s[n..]` followed there only by whitespace is the slice
      `s[n..n + |r|]`, followed in `s` only by whitespace. */
  lemma StripSlice(s: string, n: nat, r: string)
    requires n <= |s| && |r| <= |s| - n && r == s[n..][..|r|]
    requires AllWhitespace(s[n..], |r|, |s| - n)
    ensures r == s[n..n + |r|] && AllWhitespace(s, n + |r|, |s|)
    ensures IsLine(s) ==> IsLine(r)
  {
    PrefixOfSuffix(s, n, |r|);
    TrailingWhitespace(s, n, |r|);
    SliceIsLine(s, n, n + |r|);
  }

  /** A prefix of the suffix `s[n..]` is a slice of `s`. */
  lemma PrefixOfSuffix(s: string, n: nat, m: nat)
    requires n + m <= |s|
    ensures s[n..][..m] == s[n..n + m]
  {
  }

  /** Whitespace at the end of `s[n..]` is whitespace at the end of `s`. */
  lemma TrailingWhitespace(s: string, n: nat, m: nat)
    requires n + m <= |s| && AllWhitespace(s[n..], m, |s| - n)
    ensures AllWhitespace(s, n + m, |s|)
  {
    forall i | n + m <= i < |s|
      ensures IsWhitespace(s[i])
    {
      assert s[i] == s[n..][i - n];
    }
  }

  /** A slice of a text without `c` has no `c`. */
  lemma SliceAvoids(s: string, i: nat, j: nat, c: char)
    requires i <= j <= |s|
    ensures c !in s ==> c !in s[i..j]
  {
  }

  /** A slice of a line is a line. */
  lemma SliceIsLine(s: string, i: nat, j: nat)
    requires i <= j <= |s|
    ensures IsLine(s) ==> IsLine(s[i..j])
  {
  }

  /** What a read in Python's text mode with universal newlines returns:
      every `"\r\n"` and every lone `"\r"` becomes `"\n"`. The result has no
      carriage return, and a text without one is read as it is. */
  function ReadText(s: string): (r: string)
    ensures '\r' !in r
    ensures '\r' !in s ==> r == s
    decreases |s|
  {
    if s == [] then []
    else if s[0] == '\r' then
      if |s| > 1 && s[1] == '\n' then "\n" + ReadText(s[2..]) else "\n" + ReadText(s[1..])
    else [s[0]] + ReadText(s[1..])
  }

  /** `e` is one line end of a text continuing with `b`: a line feed, a
      CRLF pair, or a carriage return not followed by a line feed. */
  predicate LineEnd(e: string, b: string) {
    e == "\n" || e == "\r\n" || (e == "\r" && (b == [] || b[0] != '\n'))
  }

  /** How a text-mode read treats each line end: after text without a
      carriage return, a line feed, a CRLF pair, or a carriage return not
      followed by a line feed is read as one line feed, and the rest is read
      on its own. Together with the identity on text without a carriage
      return, this fixes the read of every text. */
  lemma ReadTextLineEnd(a: string, e: string, b: string)
    requires '\r' !in a
    requires LineEnd(e, b)
    ensures ReadText(a + (e + b)) == a + ("\n" + ReadText(b))
  {
    ReadAfter(a, e + b);
    ReadLineEnd(e, b);
  }

  /** Text without a carriage return is read as it is, whatever follows. */
  lemma {:induction false} ReadAfter(a: string, t: string)
    requires '\r' !in a
    ensures ReadText(a + t) == a + ReadText(t)
    decreases |a|
  {
    if a != [] {
      assert (a + t)[1..] == a[1..] + t;
      ReadAfter(a[1..], t);
      assert a == [a[0]] + a[1..];
    } else {
      assert a + t == t;
    }
  }

  /** A line end at the start of the text is read as one line feed. */
  lemma ReadLineEnd(e: string, b: string)
    requires LineEnd(e, b)
    ensures ReadText(e + b) == "\n" + ReadText(b)
  {
    var s := e + b;
    if e == "\r\n" {
      assert s[0] == '\r' && s[1] == '\n' && s[2..] == b;
    } else {
      assert s[0] == e[0] && s[1..] == b;
    }
  }

  /** Python's `s.split('\n')`: the pieces between line feeds, always at
      least one, none containing a line feed. */
  function Split(s: string): (r: seq<string>)
    ensures |r| >= 1
    ensures forall i :: 0 <= i < |r| ==> IsLine(r[i])
    decreases |s|
  {
    if s == [] then [[]]
    else
      var rest := Split(s[1..]);
      if s[0] == '\n' then [[]] + rest
      else [[s[0]] + rest[0]] + rest[1..]
  }

  /** Python's `'\n'.join(lines)`: the first piece, then every other piece
      preceded by a line feed. */
  function Join(lines: seq<string>): string {
    if lines == [] then [] else lines[0] + JoinRest(lines[1..])
  }

  /** Every piece of `lines`, each preceded by a line feed. */
  function JoinRest(lines: seq<string>): string
    decreases |lines|
  {
    if lines == [] then [] else "\n" + lines[0] + JoinRest(lines[1..])
  }

  /** Joining two or more pieces puts a line feed after the first. */
  lemma JoinUnfold(lines: seq<string>)
    requires |lines| >= 2
    ensures Join(lines) == lines[0] + "\n" + Join(lines[1..])
  {
    var rest := JoinRest(lines[2..]);
    assert JoinRest(lines[1..]) == "\n" + lines[1] + rest;
    assert Join(lines[1..]) == lines[1] + rest;
  }

  /** Joining the pieces of a split gives the text back. */
  lemma {:induction false} JoinSplit(s: string)
    ensures Join(Split(s)) == s
    decreases |s|
  {
    if s != [] {
      var rest := Split(s[1..]);
      JoinSplit(s[1..]);
      if s[0] == '\n' {
        JoinAfterEmpty(rest);
      } else {
        JoinExtendFirst(s[0], rest);
      }
      assert s == [s[0]] + s[1..];
    }
  }

  /** An empty first piece joins to a leading line feed. */
  lemma JoinAfterEmpty(rest: seq<string>)
    requires |rest| >= 1
    ensures Join([[]] + rest) == "\n" + Join(rest)
  {
    assert ([[]] + rest)[1..] == rest;
    assert JoinRest(rest) == "\n" + rest[0] + JoinRest(rest[1..]);
  }

  /** Putting a character in front of the first piece puts it in front of
      the join. */
  lemma JoinExtendFirst(c: char, rest: seq<string>)
    requires |rest| >= 1
    ensures Join([[c] + rest[0]] + rest[1..]) == [c] + Join(rest)
  {
    assert ([[c] + rest[0]] + rest[1..])[1..] == rest[1..];
  }

  /** A text without line feeds splits into itself alone. */
  lemma {:induction false} SplitLine(w: string)
    requires IsLine(w)
    ensures Split(w) == [w]
    decreases |w|
  {
    if w != [] {
      SplitLine(w[1..]);
      assert [w[0]] + w[1..] == w;
    }
  }

  /** Splitting a line followed by a line feed and more text yields that line
      followed by the pieces of the rest. */
  lemma {:induction false} SplitAfterLine(w: string, t: string)
    requires IsLine(w)
    ensures Split(w + "\n" + t) == [w] + Split(t)
    decreases |w|
  {
    var s := w + "\n" + t;
    if w == [] {
      assert s[0] == '\n' && s[1..] == t;
    } else {
      SplitAfterLine(w[1..], t);
      assert s[1..] == w[1..] + "\n" + t;
      assert s[0] == w[0] && s[0] != '\n';
      assert [w[0]] + w[1..] == w;
    }
  }

  /** Splitting a join of lines gives the lines back: on line sequences,
      `Join` is injective. */
  lemma {:induction false} SplitJoin(lines: seq<string>)
    requires |lines| >= 1
    requires forall i :: 0 <= i < |lines| ==> IsLine(lines[i])
    ensures Split(Join(lines)) == lines
    decreases |lines|
  {
    if |lines| == 1 {
      assert Join(lines) == lines[0] + [] == lines[0];
      assert lines == [lines[0]];
      SplitLine(lines[0]);
    } else {
      SplitJoin(lines[1..]);
      SplitAfterLine(lines[0], Join(lines[1..]));
      JoinUnfold(lines);
      assert lines == [lines[0]] + lines[1..];
    }
  }

  /** A character absent from a text is absent from each of its pieces. */
  lemma {:induction false} SplitAvoids(s: string, c: char)
    requires c !in s
    ensures forall i :: 0 <= i < |Split(s)| ==> c !in Split(s)[i]
    decreases |s|
  {
    if s != [] {
      SplitAvoids(s[1..], c);
    }
  }

  /** A character absent from every piece is absent from their join. */
  lemma {:induction false} JoinAvoids(lines: seq<string>, c: char)
    requires c != '\n'
    requires forall i :: 0 <= i < |lines| ==> c !in lines[i]
    ensures c !in Join(lines)
  {
    if lines != [] {
      JoinRestAvoids(lines[1..], c);
    }
  }

  lemma {:induction false} JoinRestAvoids(lines: seq<string>, c: char)
    requires c != '\n'
    requires forall i :: 0 <= i < |lines| ==> c !in lines[i]
    ensures c !in JoinRest(lines)
    decreases |lines|
  {
    if lines != [] {
      JoinRestAvoids(lines[1..], c);
    }
  }

  /** A text-mode read turns a CRLF pair and a lone carriage return alike
      into a line feed. */
  lemma ReadTextExample()
    ensures ReadText("a\r\nb\rc") == "a\nb\nc"
  {
    assert ReadText("c") == "c";
    assert ReadText("\rc") == "\nc";
    assert ReadText("b\rc") == "b\nc";
    assert ReadText("\r\nb\rc") == "\nb\nc";
  }

  lemma SplitExample()
    ensures Split("a\nb\nc") == ["a", "b", "c"]
  {
    SplitLine("c");
    assert "b\nc" == "b" + "\n" + "c";
    SplitAfterLine("b", "c");
    assert "a\nb\nc" == "a" + "\n" + "b\nc";
    SplitAfterLine("a", "b\nc");
  }

  /** A text contains any piece that occurs in it between two others. */
  lemma ContainsInfix(a: string, b: string, c: string)
    ensures Contains(a + b + c, b)
  {
    assert OccursAt(a + b + c, b, |a|);
  }

  /** A non-empty piece that occurs in a text begins with a character of
      that text. */
  lemma ContainsFirstChar(s: string, sub: string)
    requires |sub| > 0
    ensures Contains(s, sub) ==> sub[0] in s
  {
    if Contains(s, sub) {
      var i :| 0 <= i <= |s| - |sub| && OccursAt(s, sub, i);
      assert s[i] == s[i..i + |sub|][0];
    }
  }

  /** A text always ends with its own last part. */
  lemma EndsWithAppend(a: string, b: string)
    ensures EndsWith(a + b, b)
  {
    assert (a + b)[|a + b| - |b|..] == b;
  }

  /** Indenting a text that starts with a non-whitespace character by `n`
      spaces gives it indentation width `n`. */
  lemma IndentAfterSpaces(n: nat, t: string)
    requires |t| > 0 && !IsWhitespace(t[0])
    ensures Indent(Spaces(n) + t) == n
  {
    var s := Spaces(n) + t;
    var k := Indent(s);
    assert s[n] == t[0];
  }

  /** Stripping an indented text with no whitespace at either end gives the
      text back. */
  lemma StripAfterSpaces(n: nat, t: string)
    requires |t| > 0 && !IsWhitespace(t[0]) && !IsWhitespace(t[|t| - 1])
    ensures Strip(Spaces(n) + t) == t
  {
    var s := Spaces(n) + t;
    IndentAfterSpaces(n, t);
    var r := Strip(s);
    assert s[|s| - 1] == t[|t| - 1];
    assert n + |r| == |s|;
    assert s[n..] == t;
  }
}
